=== FILE: README.md ===
# Counselling dashboard: a functional model in Dafny

This project models the logic inside the React components of a client-side
counselling dashboard for students and teachers. Every operation is a pure
state transition over immutable datatypes. The model covers:

- **Booking form** (`booking_form.dfy`). A seven-field form. It validates the four
  required fields (title, counselor, date, time). Editing a field clears that
  field's error. Submitting passes the raw field values on only when validation
  succeeds.
- **Session records and the session card** (`session_card.dfy`). The `SessionData`
  record and its three statuses. The card offers Cancel and Reschedule only on
  upcoming sessions. The status badge text is the status with its first letter
  capitalised. The card shows the description only when it should.
- **Student dashboard** (`student_dashboard.dfy`). Booking looks up the counselor
  and puts one new upcoming session in front of the list. Cancelling by id marks
  matching sessions as cancelled. The booking-form visibility flag is part of the
  state.
- **Student profile** (`student_profile.dfy`). The editor holds a canonical record
  and a scratch copy, and is driven by edit, change, save and cancel. A role guard
  sends visitors who are not signed-in students away from the page.
- **Teacher dashboard** (`teacher_dashboard.dfy`). A case-insensitive roster search
  over name and roll number. The colour and trend arrow for each stored status.
- **Avatar** (`custom_avatar.dfy`). Up to two initials from `fallback` or `alt`, and
  the choice between the picture and the initials.
- **Shared modules.** `text.dfy` holds the JavaScript string built-ins the
  components call (`trim`, `includes`, `split`, `toLowerCase`/`toUpperCase`,
  `charAt(0)`, number-to-string). `wrappers.dfy` holds `Option`, which stands for
  optional props and `undefined`.

Environment inputs are parameters supplied by the caller:

- the clock value behind `Date.now()` is `now: nat`;
- the locale date formatter is `formatDate: string -> string`;
- the optional auth context of the profile page is `Option<AuthContext>`;
- the avatar's image-load failure flag is `imageError: bool`.

Two points about the code that the model keeps as written:

- There is no auth store in the code. Only the profile page has a guard, and no
  caller passes it a context. Its `authContext` prop is optional, so the guard
  takes the context as a parameter, and a missing context renders the page.
- Cancel marks every record carrying the id, whatever its status. Only the
  card's button gating keeps non-upcoming sessions from being cancelled.
  `CancelSession` models this.

## Model

| member | source | states |
|---|---|---|
| `Text.Trim` | src/components/dashboard/BookingForm.tsx:52 | `trim()` yields an infix of the input with only whitespace before and after it, that neither starts nor ends with JavaScript whitespace, and it is empty exactly when the input is all whitespace |
| `Text.IncludesIffOccurs` | src/pages/TeacherDashboard.tsx:112-113 | the left-to-right `includes` search succeeds iff the substring occurs at some index |
| `Text.Split` | src/components/ui/CustomAvatar.tsx:33 | `split(" ")` yields at least one part, no part contains the separator, and joining the parts with the separator gives back the input |
| `Text.SplitJoin` | src/components/ui/CustomAvatar.tsx:33 | splitting undoes joining separator-free parts (the other half of the round trip) |
| `Text.SplitManyIffSeparator` | src/components/ui/CustomAvatar.tsx:33-34 | there is more than one part iff the separator occurs in the string |
| `Text.SplitLastPart` | src/components/ui/CustomAvatar.tsx:35 | the last part of a split is exactly the text after the last separator |
| `Text.DecimalRoundTrip` | src/pages/StudentDashboard.tsx:80 | the decimal rendering of the clock value in the session id reads back as the same number |
| `BookingForm.Set` | src/components/dashboard/BookingForm.tsx:36-37 | a change writes the named field and leaves the other six fields unchanged |
| `BookingForm.ReportChain` | src/components/dashboard/BookingForm.tsx:49-56 | the four checks in a row record exactly the fields whose check failed, and never duration, location or description |
| `BookingForm.ValidateReportsMissingFields` | src/components/dashboard/BookingForm.tsx:49-56 | the error map holds exactly the required fields that are missing: a blank title, or an empty counselor, date or time; duration, location and description never produce an error |
| `BookingForm.ValidateHasMessages` | src/components/dashboard/BookingForm.tsx:52-55 | every reported error carries a non-empty message |
| `BookingForm.ValidateForm` | src/components/dashboard/BookingForm.tsx:49-59 | validation succeeds iff the title is not blank and counselor, date and time are non-empty, which is iff no error was stored |
| `BookingForm.HandleChange` | src/components/dashboard/BookingForm.tsx:31-47 | a change updates only the named field; the field's error is removed exactly when it is present with a non-empty message, as the `if (errors[name])` test, and otherwise the error map is unchanged; every other error is kept as it was |
| `BookingForm.HandleSubmit` | src/components/dashboard/BookingForm.tsx:61-67 | `onSubmit` is called iff no required field is missing, and it receives the form data unchanged; the stored errors are the missing fields |
| `BookingForm.EveryRequiredFieldMissing` | src/components/dashboard/BookingForm.tsx:52-55 | a form with every required field missing is reported on exactly the four required fields |
| `BookingForm.InitialFormFailsEveryRequiredField` | src/components/dashboard/BookingForm.tsx:19-27 | the initial form (duration "30", location "Online", all else empty) validates to exactly four errors |
| `BookingForm.InitialFormSubmitsNothing` | src/components/dashboard/BookingForm.tsx:61-67 | submitting the initial form does not call `onSubmit` |
| `BookingForm.TitleIsCheckedTrimmedButSubmittedRaw` | src/components/dashboard/BookingForm.tsx:52-65 | for every form and error map: a whitespace-only title is never submitted; a submitted title is the typed one, surrounding spaces included; a non-blank title with counselor, date and time set submits the form unchanged |
| `BookingForm.EditAfterFailedSubmitClearsOnlyThatError` | src/components/dashboard/BookingForm.tsx:40-46 | after a rejected submit, editing a field removes exactly that field's error |
| `BookingForm.ChangeClearsReportedError` | src/components/dashboard/BookingForm.tsx:40-46 | whenever every stored error carries a message, an edit removes exactly the edited field's error |
| `SessionCard.Actions` | src/components/dashboard/SessionCard.tsx:125-168 | View Details and Message are offered iff their handler is supplied; Cancel and Reschedule iff the status is upcoming and their handler is supplied; buttons appear in footer order |
| `SessionCard.FooterOrder` | src/components/dashboard/SessionCard.tsx:125-168 | for any combination of the four button conditions, each button is present iff its condition holds and the present ones keep footer order |
| `SessionCard.Render` | src/components/dashboard/SessionCard.tsx:66-97 | the description is shown iff the variant is default and the description is present and non-empty |
| `SessionCard.StatusLabels` | src/components/dashboard/SessionCard.tsx:70 | the badge reads "Upcoming", "Completed" or "Cancelled", and different statuses get different labels |
| `StudentDashboard.FindCounselor` | src/pages/StudentDashboard.tsx:75 | `find` returns nothing iff no counselor has the id, and otherwise the first entry with that id |
| `StudentDashboard.BookSession` | src/pages/StudentDashboard.tsx:73-100 | with an unknown counselor the state is unchanged; otherwise the list grows by one and its tail is the old list, and the form closes. The new first session is upcoming and takes the first matching counselor's name and department. Its id is "session-" followed by the clock value, its date is the formatted date, and its duration is the submitted one plus " mins". Title, time, location and description are passed through. |
| `StudentDashboard.ShowBookingForm` | src/pages/StudentDashboard.tsx:129-183 | the "Book Session" button (lines 129-136) and the "Book Your First Session" button of the empty list (lines 178-183) show the booking form and leave the sessions unchanged |
| `StudentDashboard.HideBookingForm` | src/pages/StudentDashboard.tsx:145-155 | the form's close button and its cancel callback hide the booking form and leave the sessions unchanged |
| `StudentDashboard.CancelSession` | src/pages/StudentDashboard.tsx:102-108 | cancelling keeps length and order; every session with the id becomes cancelled with all other fields equal, and every other session is unchanged |
| `StudentDashboard.SubmitBooking` | src/pages/StudentDashboard.tsx:152-157 | submitting the booking form on the dashboard: the form keeps its data and records exactly the missing required fields; with any required field missing the dashboard is unchanged; with none missing the data is booked, and for a listed counselor one new upcoming session goes in front of the old list and the form closes |
| `StudentDashboard.HandleCancelSession` | src/pages/StudentDashboard.tsx:102-108 | cancelling keeps the booking-form flag, the length and every session id; each session with the id becomes cancelled with its other fields equal, and every other session is unchanged |
| `StudentDashboard.CancelUnknownIdIsIdentity` | src/pages/StudentDashboard.tsx:103-107 | cancelling an id no session carries is the identity |
| `StudentDashboard.CancelIdempotent` | src/pages/StudentDashboard.tsx:103-107 | cancelling the same id twice equals cancelling it once |
| `StudentDashboard.CancelCommutes` | src/pages/StudentDashboard.tsx:103-107 | cancellations of two ids give the same list in either order |
| `StudentDashboard.CancelledSessionOffersNoCancel` | src/components/dashboard/SessionCard.tsx:136-156 | a session the dashboard cancelled no longer offers Cancel or Reschedule |
| `StudentDashboard.BookedSessionOffersEveryAction` | src/pages/StudentDashboard.tsx:164-173 | for any counselor table holding the selected id, a newly booked session's card, with the dashboard's four callbacks, offers View Details, Cancel, Reschedule and Message |
| `StudentDashboard.CancelledStaysCancelled` | src/pages/StudentDashboard.tsx:98-107 | no dashboard operation removes a cancelled session or moves it out of cancelled |
| `StudentDashboard.CancelledStaysCancelledForever` | src/pages/StudentDashboard.tsx:98-107 | over any run of dashboard operations, a cancelled session stays in the list, cancelled |
| `StudentProfile.Initial` | src/pages/StudentProfile.tsx:60-62 | the page starts in view mode with the canonical record and the scratch copy both equal to the loaded profile |
| `StudentProfile.HandleEdit` | src/pages/StudentProfile.tsx:65-68 | edit opens the edit view and resets the scratch copy to the canonical record, which is kept |
| `StudentProfile.HandleCancel` | src/pages/StudentProfile.tsx:70-72 | cancel closes the edit view and keeps the canonical record and the scratch copy |
| `StudentProfile.HandleSave` | src/pages/StudentProfile.tsx:74-76 | save makes the scratch copy the canonical record and closes the edit view |
| `StudentProfile.Set` | src/pages/StudentProfile.tsx:86 | writing an input updates that field only; every other field of the record, including the academic ones, is unchanged |
| `StudentProfile.HandleChange` | src/pages/StudentProfile.tsx:84-87 | a change writes only the named field of the scratch copy, keeping every other field of it (the non-editable ones included), and never touches the canonical record or the edit flag |
| `StudentProfile.ChangesEditOnlyScratch` | src/pages/StudentProfile.tsx:84-87 | any sequence of changes leaves the canonical record and edit flag alone; the scratch copy ends up as its old value with the last write to each field applied |
| `StudentProfile.EditThenCancelRestores` | src/pages/StudentProfile.tsx:65-72 | edit, any changes, then cancel: the canonical record equals its pre-edit value and the edit view is closed |
| `StudentProfile.EditThenSaveKeepsOnlyEdits` | src/pages/StudentProfile.tsx:65-87 | edit, any changes, then save: the canonical record is the old one with exactly the typed edits applied, and the edit view is closed |
| `StudentProfile.EditChangeSave` | src/pages/StudentProfile.tsx:65-87 | edit, change(f, v), save: the canonical record is the old record with f set to v, so every other field, the academic ones included, is unchanged and f holds v |
| `StudentProfile.Redirects` | src/pages/StudentProfile.tsx:90 | the guard fires iff a context is present and either the user is not logged in or the role is not student |
| `StudentProfile.RenderPage` | src/pages/StudentProfile.tsx:89-98 | the profile renders iff there is no context, or the context is logged in as a student; otherwise nothing is rendered |
| `TeacherDashboard.FilterStudents` | src/pages/TeacherDashboard.tsx:110-114 | the result is an order-preserving subsequence of the roster, holding each matching student as often as the roster does and no other student; a student matches iff the lower-cased query occurs in its lower-cased name or roll number |
| `TeacherDashboard.EmptyQueryKeepsAll` | src/pages/TeacherDashboard.tsx:110-114 | the empty query keeps the whole roster |
| `TeacherDashboard.FilterIdempotent` | src/pages/TeacherDashboard.tsx:110-114 | filtering the filtered roster with the same query changes nothing |
| `TeacherDashboard.QueryCaseIgnored` | src/pages/TeacherDashboard.tsx:111-113 | upper-casing the query does not change the result |
| `TeacherDashboard.StatusColorTotal` | src/pages/TeacherDashboard.tsx:116-129 | every status string gets a class; the four known statuses get four distinct classes, and exactly the other strings get the muted default |
| `TeacherDashboard.StatusIconCases` | src/pages/TeacherDashboard.tsx:131-142 | the arrow points up for excellent and good, down for at-risk and critical, and is absent for any other string |
| `CustomAvatar.FallbackInitials` | src/components/ui/CustomAvatar.tsx:30-40 | at most two characters. A non-empty fallback gives its first character upper-cased. Otherwise a space-free non-empty alt gives its first character upper-cased. An alt with spaces gives the upper-cased first characters of its first part and of the text after its last space. An empty alt gives "U". |
| `CustomAvatar.Render` | src/components/ui/CustomAvatar.tsx:51-62 | the picture is shown iff `src` is non-empty and no load error was recorded; otherwise the text shown is exactly `FallbackInitials` of the fallback and alt (at most two characters) |
| `CustomAvatar.DefaultAltGivesA` | src/components/ui/CustomAvatar.tsx:15 | without a usable fallback or an explicit alt, the default alt "Avatar" gives "A", so the "U" default branch is reached only with an explicitly empty alt |
| `CustomAvatar.SingleSpaceAltGivesNothing` | src/components/ui/CustomAvatar.tsx:32-35 | an alt of a single space splits into two empty parts and gives the empty string |
| `CustomAvatar.TwoWordNameInitials` | src/components/ui/CustomAvatar.tsx:32-35 | "Rahul Sharma" gives "RS" |

## Left out

- Rendering, layout and CSS are left out. This covers JSX markup, class strings
  assembled with `cn`, the `statusColors` badge classes, icons and animations.
  The purely presentational components (custom card, custom button, dashboard
  shell, footer, not-found page, landing page) are left out too. They hold no
  logic beyond choosing a string from a literal map.
- The performance chart is a wrapper over a charting library fed with
  floating-point literals.
- The navigation bar is left out. Its dark-mode toggle writes to browser storage
  and the DOM, it has a scroll listener, and its logged-in flag is a local stub
  that is never set. The landing page's IntersectionObserver is animation only.
- Routing (src/App.tsx) is react-router configuration. The second `/dashboard`
  route is shadowed by the first. The profile page is not routed at all.
- There is no auth store or sign-in/sign-out in the code. The profile guard's
  context is a parameter.
- `Date.now()` and `toLocaleDateString` are parameters (`now`, `formatDate`). The
  redirect's `setTimeout` delay, toasts and `console.log` callbacks are side
  effects and are not modelled. The redirect is the outcome `RedirectHome`.
- `Text.Lower`, `Text.Upper`: Unicode case mapping is not modelled. Only ASCII
  letters change case, and other characters are kept. Full Unicode mapping can
  change a string's length (for example "ß" becomes "SS"), so with non-ASCII
  input the real initials could be longer than two characters.
- `Text.FirstChar`: strings are sequences of Unicode code points, while
  `charAt(0)` returns one UTF-16 code unit. For an initial outside the Basic
  Multilingual Plane the model differs: with `fallback = "😀 Smile"` the code
  returns the lone high surrogate "\uD83D", while the model returns "😀". The
  `|r| <= 2` bound of `CustomAvatar.FallbackInitials` and `CustomAvatar.Render`
  counts code points, not UTF-16 code units.
- `StudentProfile.HandleChange` accepts only the five field names the edit view
  renders inputs for (name, email, phone, dob, address). The source's computed
  key would accept any name, but no other input exists.
- `cgpa` and `attendance` are `real` values that the model never computes with.
  The roster's `status` is a stored string with no formula behind it.
- The session card's `onViewDetails`, `onReschedule` and `onMessage` callbacks
  only log. Reschedule changes no stored field. The teacher dashboard's own
  session list is static.
- The booking form's `onCancel` is the dashboard's `CloseBookingForm` operation.
- The counselor `<select>` options are presentational.

=== FILE: booking_form.dfy ===
/**
 * The session booking form (src/components/dashboard/BookingForm.tsx): seven
 * string fields, a validator that reports the missing required fields, a
 * change handler that edits one field and clears its error, and a submit
 * handler that passes the raw fields on only when validation succeeds.
 */
module BookingForm {

  import opened Wrappers
  import opened Text

  /** The `name` attribute of each input of the form. */
  datatype Field = Title | CounselorId | Date | Time | Duration | Location | Description

  datatype FormData = FormData(
    title: string,
    counselorId: string,
    date: string,
    time: string,
    duration: string,
    location: string,
    description: string)

  /** Per-field error messages (`Record<string, string>`). */
  type Errors = map<Field, string>

  datatype FormState = FormState(data: FormData, errors: Errors)

  /** The result of submitting: the form's new state and what `onSubmit` received, if it was called. */
  datatype SubmitOutcome = SubmitOutcome(state: FormState, submitted: Option<FormData>)

  const InitialForm := FormData("", "", "", "", "30", "Online", "")

  const InitialState := FormState(InitialForm, map[])

  const TitleRequired := "Title is required"
  const CounselorRequired := "Please select a counselor"
  const DateRequired := "Date is required"
  const TimeRequired := "Time is required"

  const RequiredFields: set<Field> := {Title, CounselorId, Date, Time}

  function Get(f: FormData, field: Field): string {
    match field
    case Title => f.title
    case CounselorId => f.counselorId
    case Date => f.date
    case Time => f.time
    case Duration => f.duration
    case Location => f.location
    case Description => f.description
  }

  /** `{ ...prev, [name]: value }`. */
  function Set(f: FormData, field: Field, value: string): (r: FormData)
    ensures Get(r, field) == value
    ensures forall other :: other != field ==> Get(r, other) == Get(f, other)
  {
    match field
    case Title => f.(title := value)
    case CounselorId => f.(counselorId := value)
    case Date => f.(date := value)
    case Time => f.(time := value)
    case Duration => f.(duration := value)
    case Location => f.(location := value)
    case Description => f.(description := value)
  }

  /** A required field the user has not filled in: a title of whitespace only, or an empty selection or entry. */
  predicate IsMissing(f: FormData, field: Field) {
    match field
    case Title => IsBlank(f.title)
    case CounselorId => f.counselorId == ""
    case Date => f.date == ""
    case Time => f.time == ""
    case _ => false
  }

  /** Every recorded error carries a message, so `errors[name]` is truthy exactly for the recorded fields. */
  predicate HasMessages(errors: Errors) {
    forall field :: field in errors ==> errors[field] != ""
  }

  /** One check of `validateForm`: `if (missing) newErrors[field] = msg`. */
  function Report(e: Errors, missing: bool, field: Field, msg: string): (r: Errors)
    ensures r.Keys == if missing then e.Keys + {field} else e.Keys
  {
    if missing then e[field := msg] else e
  }

  /** A check with a non-empty message keeps every stored error non-empty. */
  lemma ReportKeepsMessages(e: Errors, missing: bool, field: Field, msg: string)
    requires HasMessages(e) && msg != ""
    ensures HasMessages(Report(e, missing, field, msg))
  {
  }

  /** The error map `validateForm` builds, one check after the other. */
  function Validate(f: FormData): Errors {
    var e1 := Report(map[], Trim(f.title) == "", Title, TitleRequired);
    var e2 := Report(e1, f.counselorId == "", CounselorId, CounselorRequired);
    var e3 := Report(e2, f.date == "", Date, DateRequired);
    Report(e3, f.time == "", Time, TimeRequired)
  }

  /** The four checks in a row record exactly the fields whose check failed. */
  lemma ReportChain(a: bool, b: bool, c: bool, d: bool)
    ensures var e := Report(Report(Report(Report(map[], a, Title, TitleRequired), b, CounselorId, CounselorRequired),
                                   c, Date, DateRequired), d, Time, TimeRequired);
            && (Title in e <==> a) && (CounselorId in e <==> b) && (Date in e <==> c) && (Time in e <==> d)
            && Duration !in e && Location !in e && Description !in e
  {
  }

  /** The validator reports each missing required field, and nothing else. */
  lemma ValidateReportsMissingFields(f: FormData)
    ensures forall field :: field in Validate(f) <==> field in RequiredFields && IsMissing(f, field)
  {
    ReportChain(Trim(f.title) == "", f.counselorId == "", f.date == "", f.time == "");
    assert Trim(f.title) == "" <==> IsBlank(f.title);
    forall field
      ensures field in Validate(f) <==> field in RequiredFields && IsMissing(f, field)
    {
      match field
      case Title =>
      case CounselorId =>
      case Date =>
      case Time =>
      case _ =>
    }
  }

  /** Every report carries a message. */
  lemma ValidateHasMessages(f: FormData)
    ensures HasMessages(Validate(f))
  {
    var e0: Errors := map[];
    ReportKeepsMessages(e0, Trim(f.title) == "", Title, TitleRequired);
    var e1 := Report(e0, Trim(f.title) == "", Title, TitleRequired);
    ReportKeepsMessages(e1, f.counselorId == "", CounselorId, CounselorRequired);
    var e2 := Report(e1, f.counselorId == "", CounselorId, CounselorRequired);
    ReportKeepsMessages(e2, f.date == "", Date, DateRequired);
    var e3 := Report(e2, f.date == "", Date, DateRequired);
    ReportKeepsMessages(e3, f.time == "", Time, TimeRequired);
  }

  /** `validateForm`: the errors it stores and the verdict it returns. */
  function ValidateForm(f: FormData): (result: (Errors, bool))
    ensures result.1 <==> !IsBlank(f.title) && f.counselorId != "" && f.date != "" && f.time != ""
    ensures result.1 <==> result.0 == map[]
    ensures forall field :: field in result.0 <==> field in RequiredFields && IsMissing(f, field)
  {
    var errors := Validate(f);
    ValidateReportsMissingFields(f);
    assert Title in errors <==> IsBlank(f.title);
    (errors, |errors| == 0)
  }

  /** `handleChange`: store the new value and drop the field's error if it is set. */
  function HandleChange(s: FormState, field: Field, value: string): (r: FormState)
    ensures Get(r.data, field) == value
    ensures forall other :: other != field ==> Get(r.data, other) == Get(s.data, other)
    ensures forall other :: other != field ==> (other in r.errors <==> other in s.errors)
    ensures forall other :: other != field && other in r.errors ==> r.errors[other] == s.errors[other]
    ensures field in s.errors && s.errors[field] != "" ==> field !in r.errors
    ensures !(field in s.errors && s.errors[field] != "") ==> r.errors == s.errors
    ensures HasMessages(s.errors) ==> field !in r.errors
    ensures HasMessages(s.errors) ==> HasMessages(r.errors)
  {
    var errors := if field in s.errors && s.errors[field] != "" then s.errors - {field} else s.errors;
    FormState(Set(s.data, field, value), errors)
  }

  /** `handleSubmit`: validate, and call `onSubmit` with the form data only when validation passes. */
  function HandleSubmit(s: FormState): (r: SubmitOutcome)
    ensures r.state.data == s.data
    ensures forall field :: field in r.state.errors <==> field in RequiredFields && IsMissing(s.data, field)
    ensures r.submitted.Some? <==> forall field :: field in RequiredFields ==> !IsMissing(s.data, field)
    ensures r.submitted.Some? ==> r.submitted.value == s.data
    ensures HasMessages(r.state.errors)
  {
    var (errors, ok) := ValidateForm(s.data);
    ValidateReportsMissingFields(s.data);
    ValidateHasMessages(s.data);
    SubmitOutcome(FormState(s.data, errors), if ok then Some(s.data) else None)
  }

  /** A form with every required field missing is reported on exactly the required fields. */
  lemma EveryRequiredFieldMissing(f: FormData)
    requires IsBlank(f.title) && f.counselorId == "" && f.date == "" && f.time == ""
    ensures Validate(f).Keys == RequiredFields
  {
    ValidateReportsMissingFields(f);
    var keys := Validate(f).Keys;
    forall field
      ensures field in keys <==> field in RequiredFields
    {
      match field
      case Title =>
      case CounselorId =>
      case Date =>
      case Time =>
      case _ =>
    }
  }

  /** The untouched form reports all four required fields and nothing else. */
  lemma InitialFormFailsEveryRequiredField()
    ensures Validate(InitialForm).Keys == RequiredFields
  {
    EveryRequiredFieldMissing(InitialForm);
  }

  /** Submitting the untouched form does not call `onSubmit`. */
  lemma InitialFormSubmitsNothing()
    ensures HandleSubmit(InitialState).submitted.None?
  {
    assert IsMissing(InitialState.data, Title);
  }

  /**
   * The title is checked trimmed but submitted raw: a whitespace-only title is
   * never submitted, a submitted title is the typed one, and any non-blank
   * title with the other required fields set reaches `onSubmit` with its
   * surrounding spaces intact.
   */
  lemma TitleIsCheckedTrimmedButSubmittedRaw(f: FormData, errors: Errors)
    ensures IsBlank(f.title) ==> HandleSubmit(FormState(f, errors)).submitted == None
    ensures HandleSubmit(FormState(f, errors)).submitted.Some? ==>
              HandleSubmit(FormState(f, errors)).submitted.value.title == f.title
    ensures !IsBlank(f.title) && f.counselorId != "" && f.date != "" && f.time != "" ==>
              HandleSubmit(FormState(f, errors)).submitted == Some(f)
  {
    if IsBlank(f.title) {
      assert IsMissing(f, Title);
    }
  }

  /**
   * After a rejected submit, editing a reported field removes exactly that
   * field's error: the other reports stay as the validator left them.
   */
  lemma EditAfterFailedSubmitClearsOnlyThatError(s: FormState, field: Field, value: string)
    ensures var failed := HandleSubmit(s).state;
            HandleChange(failed, field, value).errors == failed.errors - {field}
  {
    ChangeClearsReportedError(HandleSubmit(s).state, field, value);
  }

  /** When every error carries a message, an edit removes exactly the edited field's error. */
  lemma ChangeClearsReportedError(s: FormState, field: Field, value: string)
    requires HasMessages(s.errors)
    ensures HandleChange(s, field, value).errors == s.errors - {field}
  {
    if field !in s.errors {
      assert s.errors - {field} == s.errors;
    }
  }
}

=== FILE: custom_avatar.dfy ===
/**
 * The avatar (src/components/ui/CustomAvatar.tsx): the picture when there
 * is one that loaded, otherwise up to two upper-case initials.
 */
module CustomAvatar {

  import opened Wrappers
  import opened Text

  /** The default of the `alt` prop. */
  const DefaultAlt := "Avatar"

  /** The text the avatar falls back to when neither `fallback` nor `alt` has any. */
  const UnknownInitial := "U"

  datatype AvatarView = Image(src: string) | Initials(text: string)

  /** `alt` after its default applies: only an absent prop defaults, an empty one stays empty. */
  function AltText(alt: Option<string>): string {
    alt.GetOr(DefaultAlt)
  }

  /** The first character of the first space-separated part, which is empty when `a` opens with a space. */
  function Lead(a: string): string {
    if |a| == 0 || a[0] == ' ' then "" else [a[0]]
  }

  /** `getFallbackInitials`. */
  function FallbackInitials(fallback: Option<string>, alt: Option<string>): (r: string)
    ensures |r| <= 2
    ensures IsTruthy(fallback) ==> r == [UpperChar(fallback.value[0])]
    ensures !IsTruthy(fallback) && AltText(alt) == "" ==> r == UnknownInitial
    ensures var a := AltText(alt);
            !IsTruthy(fallback) && a != "" && ' ' !in a ==> r == [UpperChar(a[0])]
    ensures var a := AltText(alt);
            !IsTruthy(fallback) && ' ' in a ==>
              forall j :: IsLastIndexOf(a, ' ', j) ==>
                r == Upper(Lead(a)) + Upper(FirstChar(a[j + 1..]))
  {
    var a := AltText(alt);
    if IsTruthy(fallback) then Upper(FirstChar(fallback.value))
    else if a != "" then
      var parts := Split(a, ' ');
      SplitManyIffSeparator(a, ' ');
      if |parts| > 1 then
        SplitFirstPartHead(a, ' ');
        LastPartFollowsLastSpace(a, parts);
        Upper(FirstChar(parts[0]) + FirstChar(parts[|parts| - 1]))
      else Upper(FirstChar(a))
    else UnknownInitial
  }

  lemma LastPartFollowsLastSpace(a: string, parts: seq<string>)
    requires parts == Split(a, ' ')
    ensures forall j :: IsLastIndexOf(a, ' ', j) ==> parts[|parts| - 1] == a[j + 1..]
  {
    forall j | IsLastIndexOf(a, ' ', j)
      ensures parts[|parts| - 1] == a[j + 1..]
    {
      SplitLastPart(a, ' ', j);
    }
  }

  /** The avatar shows the picture exactly when `src` is non-empty and it has not failed to load. */
  function Render(src: Option<string>, alt: Option<string>, fallback: Option<string>, imageError: bool): (v: AvatarView)
    ensures v.Image? <==> src.Some? && src.value != "" && !imageError
    ensures v.Image? ==> v.src == src.value
    ensures v.Initials? ==> v.text == FallbackInitials(fallback, alt) && |v.text| <= 2
  {
    if IsTruthy(src) && !imageError then Image(src.value) else Initials(FallbackInitials(fallback, alt))
  }

  /** Without an explicit `alt`, the default "Avatar" gives "A", so "U" needs an explicitly empty `alt`. */
  lemma DefaultAltGivesA(fallback: Option<string>)
    requires !IsTruthy(fallback)
    ensures FallbackInitials(fallback, None) == "A"
  {
  }

  /** An `alt` of one space splits into two empty parts, and no initial is left. */
  lemma SingleSpaceAltGivesNothing()
    ensures FallbackInitials(None, Some(" ")) == ""
  {
    assert Lead(" ") == "";
    assert " "[1..] == "";
  }

  /** A two-word name gives the initials of both words. */
  lemma TwoWordNameInitials()
    ensures FallbackInitials(None, Some("Rahul Sharma")) == "RS"
  {
    var a := "Rahul Sharma";
    assert a[6..] == "Sharma";
    assert IsLastIndexOf(a, ' ', 5);
  }
}

=== FILE: session_card.dfy ===
/**
 * The counselling session record and the card that renders it
 * (src/components/dashboard/SessionCard.tsx): which actions the card offers,
 * the status badge text, and when the description appears.
 */
module SessionCard {

  import opened Wrappers
  import opened Text

  datatype Status = Upcoming | Completed | Cancelled

  datatype Counselor = Counselor(name: string, avatar: Option<string>, department: string)

  /** `SessionData`; `description` is optional. */
  datatype SessionData = SessionData(
    id: string,
    title: string,
    date: string,
    time: string,
    duration: string,
    counselor: Counselor,
    location: string,
    status: Status,
    description: Option<string>)

  datatype Variant = Default | Compact

  /** Which of the optional callbacks the parent supplied. */
  datatype Handlers = Handlers(onViewDetails: bool, onCancel: bool, onReschedule: bool, onMessage: bool)

  /** The footer buttons, in the order the footer lays them out. */
  datatype Action = ViewDetails | CancelAction | Reschedule | Message

  /** What the card shows, apart from the fields it prints verbatim. */
  datatype CardView = CardView(badge: string, showsDescription: bool, actions: seq<Action>)

  /** The string literal each status is spelled as. */
  function StatusName(st: Status): string {
    match st
    case Upcoming => "upcoming"
    case Completed => "completed"
    case Cancelled => "cancelled"
  }

  /** `status.charAt(0).toUpperCase() + status.slice(1)`. */
  function StatusLabel(st: Status): string {
    var name := StatusName(st);
    Upper(FirstChar(name)) + name[1..]
  }

  function Position(a: Action): nat {
    match a
    case ViewDetails => 0
    case CancelAction => 1
    case Reschedule => 2
    case Message => 3
  }

  /** `{cond && <Button/>}`: the button when the condition holds, nothing otherwise. */
  function When(cond: bool, a: Action): seq<Action> {
    if cond then [a] else []
  }

  /** The footer buttons the card renders for `session` given the supplied callbacks. */
  function Actions(session: SessionData, h: Handlers): (actions: seq<Action>)
    ensures ViewDetails in actions <==> h.onViewDetails
    ensures CancelAction in actions <==> session.status == Upcoming && h.onCancel
    ensures Reschedule in actions <==> session.status == Upcoming && h.onReschedule
    ensures Message in actions <==> h.onMessage
    ensures forall i, j :: 0 <= i < j < |actions| ==> Position(actions[i]) < Position(actions[j])
  {
    var isUpcoming := session.status == Upcoming;
    FooterOrder(h.onViewDetails, isUpcoming && h.onCancel, isUpcoming && h.onReschedule, h.onMessage);
    When(h.onViewDetails, ViewDetails) + When(isUpcoming && h.onCancel, CancelAction)
    + When(isUpcoming && h.onReschedule, Reschedule) + When(h.onMessage, Message)
  }

  /** Whichever buttons are present, each appears iff its condition holds and they keep the footer's left-to-right order. */
  lemma FooterOrder(a: bool, b: bool, c: bool, d: bool)
    ensures var xs := When(a, ViewDetails) + When(b, CancelAction) + When(c, Reschedule) + When(d, Message);
            && (ViewDetails in xs <==> a) && (CancelAction in xs <==> b)
            && (Reschedule in xs <==> c) && (Message in xs <==> d)
            && forall i, j :: 0 <= i < j < |xs| ==> Position(xs[i]) < Position(xs[j])
  {
    var xs := When(a, ViewDetails) + When(b, CancelAction) + When(c, Reschedule) + When(d, Message);
    if a {
      if b {
        if c {
          if d { assert xs == [ViewDetails, CancelAction, Reschedule, Message]; }
          else { assert xs == [ViewDetails, CancelAction, Reschedule]; }
        } else {
          if d { assert xs == [ViewDetails, CancelAction, Message]; }
          else { assert xs == [ViewDetails, CancelAction]; }
        }
      } else {
        if c {
          if d { assert xs == [ViewDetails, Reschedule, Message]; }
          else { assert xs == [ViewDetails, Reschedule]; }
        } else {
          if d { assert xs == [ViewDetails, Message]; }
          else { assert xs == [ViewDetails]; }
        }
      }
    } else {
      if b {
        if c {
          if d { assert xs == [CancelAction, Reschedule, Message]; }
          else { assert xs == [CancelAction, Reschedule]; }
        } else {
          if d { assert xs == [CancelAction, Message]; }
          else { assert xs == [CancelAction]; }
        }
      } else {
        if c {
          if d { assert xs == [Reschedule, Message]; }
          else { assert xs == [Reschedule]; }
        } else {
          if d { assert xs == [Message]; }
          else { assert xs == []; }
        }
      }
    }
  }

  /** The card for `session`. */
  function Render(session: SessionData, h: Handlers, variant: Variant): (v: CardView)
    ensures v.showsDescription <==> variant == Default && session.description.Some? && |session.description.value| > 0
    ensures v.badge == StatusLabel(session.status)
    ensures v.actions == Actions(session, h)
  {
    CardView(StatusLabel(session.status), variant == Default && IsTruthy(session.description), Actions(session, h))
  }

  /** The badge reads "Upcoming", "Completed" or "Cancelled", and tells the three states apart. */
  lemma StatusLabels()
    ensures StatusLabel(Upcoming) == "Upcoming"
    ensures StatusLabel(Completed) == "Completed"
    ensures StatusLabel(Cancelled) == "Cancelled"
    ensures forall a, b :: StatusLabel(a) == StatusLabel(b) ==> a == b
  {
    assert StatusLabel(Upcoming) == "Upcoming";
    assert StatusLabel(Completed) == "Completed";
    assert StatusLabel(Cancelled) == "Cancelled";
  }
}

=== FILE: student_dashboard.dfy ===
/**
 * The student dashboard's session list (src/pages/StudentDashboard.tsx):
 * booking a session from the submitted form, cancelling a session by id,
 * and the booking-form visibility flag.
 */
module StudentDashboard {

  import opened Wrappers
  import opened Text
  import BookingForm
  import opened SessionCard

  datatype CounselorEntry = CounselorEntry(id: string, name: string, department: string)

  datatype DashboardState = DashboardState(sessions: seq<SessionData>, showBookingForm: bool)

  /** The counselors offered in the booking form's selector. */
  const Counselors: seq<CounselorEntry> := [
    CounselorEntry("1", "Dr. Srinivas Rao", "Computer Science"),
    CounselorEntry("2", "Dr. Lakshmi Menon", "Electrical Engineering"),
    CounselorEntry("3", "Prof. Rajesh Kumar", "Mathematics"),
    CounselorEntry("4", "Dr. Ananya Sharma", "Physics")
  ]

  /** The dashboard passes all four card callbacks. */
  const CardHandlers := Handlers(true, true, true, true)

  /** The template literal `session-${Date.now()}`. */
  function SessionId(now: nat): string {
    "session-" + Decimal(now)
  }

  /** `Array.prototype.find` on the counselor table: the first entry with the requested id. */
  function FindCounselor(table: seq<CounselorEntry>, id: string): (r: Option<CounselorEntry>)
    ensures r.None? <==> forall i :: 0 <= i < |table| ==> table[i].id != id
    ensures r.Some? ==> exists i :: 0 <= i < |table| && table[i] == r.value && table[i].id == id
                                    && forall j :: 0 <= j < i ==> table[j].id != id
    decreases |table|
  {
    if |table| == 0 then None
    else if table[0].id == id then Some(table[0])
    else
      FindCounselor(table[1..], id)
  }

  /**
   * The session `handleBookSession` builds: id and date come from the clock
   * and the locale formatter it is given, the duration gains a " mins" unit,
   * and the other entries are passed through.
   */
  predicate IsBookedFrom(s: SessionData, data: BookingForm.FormData, c: CounselorEntry,
                         now: nat, formatDate: string -> string)
  {
    && s.id == SessionId(now)
    && s.title == data.title
    && s.date == formatDate(data.date)
    && s.time == data.time
    && s.duration == data.duration + " mins"
    && s.counselor == SessionCard.Counselor(c.name, None, c.department)
    && s.location == data.location
    && s.status == Upcoming
    && s.description == Some(data.description)
  }

  function NewSession(data: BookingForm.FormData, c: CounselorEntry, now: nat,
                      formatDate: string -> string): SessionData
  {
    SessionData(SessionId(now), data.title, formatDate(data.date), data.time, data.duration + " mins",
                SessionCard.Counselor(c.name, None, c.department), data.location, Upcoming,
                Some(data.description))
  }

  /**
   * `handleBookSession`: with an unknown counselor nothing changes; otherwise
   * one new upcoming session goes in front of the list and the form closes.
   */
  function BookSession(st: DashboardState, table: seq<CounselorEntry>, data: BookingForm.FormData,
                       now: nat, formatDate: string -> string): (r: DashboardState)
    ensures (forall i :: 0 <= i < |table| ==> table[i].id != data.counselorId) ==> r == st
    ensures (exists i :: 0 <= i < |table| && table[i].id == data.counselorId) ==>
              && |r.sessions| == |st.sessions| + 1
              && r.sessions[1..] == st.sessions
              && !r.showBookingForm
              && exists i :: 0 <= i < |table| && table[i].id == data.counselorId
                             && (forall j :: 0 <= j < i ==> table[j].id != data.counselorId)
                             && IsBookedFrom(r.sessions[0], data, table[i], now, formatDate)
  {
    match FindCounselor(table, data.counselorId)
    case None => st
    case Some(c) =>
      var sessions := [NewSession(data, c, now, formatDate)] + st.sessions;
      assert sessions[1..] == st.sessions;
      DashboardState(sessions, false)
  }

  /** `sessions.map(...)` in `handleCancelSession`: every session with the id becomes cancelled. */
  function CancelSession(sessions: seq<SessionData>, id: string): (r: seq<SessionData>)
    ensures |r| == |sessions|
    ensures forall i :: 0 <= i < |r| && sessions[i].id == id ==> r[i] == sessions[i].(status := Cancelled)
    ensures forall i :: 0 <= i < |r| && sessions[i].id != id ==> r[i] == sessions[i]
    decreases |sessions|
  {
    if |sessions| == 0 then []
    else
      var head := if sessions[0].id == id then sessions[0].(status := Cancelled) else sessions[0];
      [head] + CancelSession(sessions[1..], id)
  }

  function HandleCancelSession(st: DashboardState, id: string): (r: DashboardState)
    ensures r.showBookingForm == st.showBookingForm
    ensures |r.sessions| == |st.sessions|
    ensures forall i :: 0 <= i < |r.sessions| ==> r.sessions[i].id == st.sessions[i].id
    ensures forall i :: 0 <= i < |r.sessions| && st.sessions[i].id == id ==>
              r.sessions[i] == st.sessions[i].(status := Cancelled)
    ensures forall i :: 0 <= i < |r.sessions| && st.sessions[i].id != id ==> r.sessions[i] == st.sessions[i]
  {
    st.(sessions := CancelSession(st.sessions, id))
  }

  /** Cancelling an id that no session carries leaves the list as it was. */
  lemma CancelUnknownIdIsIdentity(sessions: seq<SessionData>, id: string)
    requires forall i :: 0 <= i < |sessions| ==> sessions[i].id != id
    ensures CancelSession(sessions, id) == sessions
  {
  }

  /** Cancelling the same id twice is cancelling it once. */
  lemma CancelIdempotent(sessions: seq<SessionData>, id: string)
    ensures CancelSession(CancelSession(sessions, id), id) == CancelSession(sessions, id)
  {
  }

  /** Cancellations of different ids do not interfere: their order does not matter. */
  lemma CancelCommutes(sessions: seq<SessionData>, a: string, b: string)
    ensures CancelSession(CancelSession(sessions, a), b) == CancelSession(CancelSession(sessions, b), a)
  {
  }

  /** A session the dashboard has cancelled no longer offers Cancel or Reschedule on its card. */
  lemma CancelledSessionOffersNoCancel(sessions: seq<SessionData>, id: string, i: int)
    requires 0 <= i < |sessions| && sessions[i].id == id
    ensures CancelAction !in Actions(CancelSession(sessions, id)[i], CardHandlers)
    ensures Reschedule !in Actions(CancelSession(sessions, id)[i], CardHandlers)
  {
  }

  /** A freshly booked session offers every action, Cancel and Reschedule included. */
  lemma BookedSessionOffersEveryAction(st: DashboardState, table: seq<CounselorEntry>, data: BookingForm.FormData,
                                       now: nat, formatDate: string -> string)
    requires exists i :: 0 <= i < |table| && table[i].id == data.counselorId
    ensures var r := BookSession(st, table, data, now, formatDate);
            Actions(r.sessions[0], CardHandlers) == [ViewDetails, CancelAction, Reschedule, Message]
  {
    var r := BookSession(st, table, data, now, formatDate);
    var i :| 0 <= i < |table| && table[i].id == data.counselorId && IsBookedFrom(r.sessions[0], data, table[i], now, formatDate);
    var session := r.sessions[0];
    assert session.status == Upcoming;
    assert Actions(session, CardHandlers) == [ViewDetails] + [CancelAction] + [Reschedule] + [Message];
  }

  /** The "Book Session" and "Book Your First Session" buttons: show the booking form and leave the sessions alone. */
  function ShowBookingForm(st: DashboardState): (r: DashboardState)
    ensures r.showBookingForm && r.sessions == st.sessions
  {
    st.(showBookingForm := true)
  }

  /** The form's close button and its `onCancel`: hide the booking form and leave the sessions alone. */
  function HideBookingForm(st: DashboardState): (r: DashboardState)
    ensures !r.showBookingForm && r.sessions == st.sessions
  {
    st.(showBookingForm := false)
  }

  /**
   * Submitting the booking form on the dashboard (`onSubmit={handleBookSession}`):
   * the form validates, and only data that passed reaches `handleBookSession`.
   * The result is the dashboard's new state and the form's new state.
   */
  function SubmitBooking(st: DashboardState, form: BookingForm.FormState, now: nat,
                         formatDate: string -> string): (r: (DashboardState, BookingForm.FormState))
    ensures r.1.data == form.data
    ensures forall field :: field in r.1.errors <==> field in BookingForm.RequiredFields && BookingForm.IsMissing(form.data, field)
    ensures (exists field :: field in BookingForm.RequiredFields && BookingForm.IsMissing(form.data, field)) ==> r.0 == st
    ensures (forall field :: field in BookingForm.RequiredFields ==> !BookingForm.IsMissing(form.data, field)) ==>
              r.0 == BookSession(st, Counselors, form.data, now, formatDate)
    ensures (forall field :: field in BookingForm.RequiredFields ==> !BookingForm.IsMissing(form.data, field))
            && (exists i :: 0 <= i < |Counselors| && Counselors[i].id == form.data.counselorId) ==>
              && |r.0.sessions| == |st.sessions| + 1
              && r.0.sessions[1..] == st.sessions
              && r.0.sessions[0].status == Upcoming
              && !r.0.showBookingForm
  {
    var outcome := BookingForm.HandleSubmit(form);
    match outcome.submitted
    case None => (st, outcome.state)
    case Some(data) => (BookSession(st, Counselors, data, now, formatDate), outcome.state)
  }

  /** The user-facing operations of the dashboard. */
  datatype Op =
    | OpenBookingForm
    | CloseBookingForm
    | Submit(form: BookingForm.FormState, now: nat, formatDate: string -> string)
    | Cancel(id: string)

  function Apply(st: DashboardState, op: Op): DashboardState {
    match op
    case OpenBookingForm => ShowBookingForm(st)
    case CloseBookingForm => HideBookingForm(st)
    case Submit(form, now, formatDate) => SubmitBooking(st, form, now, formatDate).0
    case Cancel(id) => HandleCancelSession(st, id)
  }

  function ApplyAll(st: DashboardState, ops: seq<Op>): DashboardState
    decreases |ops|
  {
    if |ops| == 0 then st else ApplyAll(Apply(st, ops[0]), ops[1..])
  }

  /** Sessions are never deleted and nothing leads out of `cancelled`. */
  lemma CancelledStaysCancelled(st: DashboardState, op: Op, s: SessionData)
    requires s in st.sessions && s.status == Cancelled
    ensures s in Apply(st, op).sessions
  {
    match op
    case Cancel(id) =>
      var i :| 0 <= i < |st.sessions| && st.sessions[i] == s;
      assert s.(status := Cancelled) == s;
      assert Apply(st, op).sessions[i] == s;
    case Submit(form, now, formatDate) =>
      var r := Apply(st, op);
      if r != st {
        assert s in r.sessions[1..];
      }
    case _ =>
  }

  /** Over any run of operations, a cancelled session stays in the list, cancelled. */
  lemma {:induction false} CancelledStaysCancelledForever(st: DashboardState, ops: seq<Op>, s: SessionData)
    requires s in st.sessions && s.status == Cancelled
    ensures s in ApplyAll(st, ops).sessions
    decreases |ops|
  {
    if |ops| > 0 {
      CancelledStaysCancelled(st, ops[0], s);
      CancelledStaysCancelledForever(Apply(st, ops[0]), ops[1..], s);
    }
  }
}

=== FILE: student_profile.dfy ===
/**
 * The student profile page (src/pages/StudentProfile.tsx): an editor that
 * keeps a canonical record and a scratch copy, and the guard that sends
 * visitors who are not signed-in students away from the page.
 */
module StudentProfile {

  import opened Wrappers

  datatype Course = Course(code: string, name: string, grade: string, professor: string)

  /** The student record; `cgpa` and `attendance` are display values the page never computes with. */
  datatype Profile = Profile(
    id: string,
    name: string,
    email: string,
    phone: string,
    dob: string,
    address: string,
    department: string,
    year: string,
    cgpa: real,
    attendance: real,
    advisor: string,
    courses: seq<Course>,
    achievements: seq<string>)

  /** The `name` attributes of the inputs shown while editing. */
  datatype ProfileField = Name | Email | Phone | Dob | Address

  /**
   * The page state: the canonical record `student`, the scratch copy
   * `editForm`, and whether the edit view is shown.
   */
  datatype Editor = Editor(student: Profile, editForm: Profile, editing: bool)

  function Get(p: Profile, f: ProfileField): string {
    match f
    case Name => p.name
    case Email => p.email
    case Phone => p.phone
    case Dob => p.dob
    case Address => p.address
  }

  /** `{ ...editForm, [name]: value }`. */
  function Set(p: Profile, f: ProfileField, value: string): (r: Profile)
    ensures Get(r, f) == value
    ensures forall g :: g != f ==> Get(r, g) == Get(p, g)
    ensures r.(name := p.name, email := p.email, phone := p.phone, dob := p.dob, address := p.address) == p
  {
    match f
    case Name => p.(name := value)
    case Email => p.(email := value)
    case Phone => p.(phone := value)
    case Dob => p.(dob := value)
    case Address => p.(address := value)
  }

  /** The page starts in the read view with both copies equal to the loaded record. */
  function Initial(p: Profile): (r: Editor)
    ensures !r.editing && r.student == p && r.editForm == p
  {
    Editor(p, p, false)
  }

  /** `handleEdit`: refresh the scratch copy from the canonical record and open the edit view. */
  function HandleEdit(e: Editor): (r: Editor)
    ensures r.editing && r.editForm == e.student && r.student == e.student
  {
    Editor(e.student, e.student, true)
  }

  /** `handleCancel`: close the edit view; the canonical record is kept. */
  function HandleCancel(e: Editor): (r: Editor)
    ensures !r.editing && r.student == e.student && r.editForm == e.editForm
  {
    e.(editing := false)
  }

  /** `handleSave`: the scratch copy becomes the canonical record and the edit view closes. */
  function HandleSave(e: Editor): (r: Editor)
    ensures !r.editing && r.student == e.editForm && r.editForm == e.editForm
  {
    Editor(e.editForm, e.editForm, false)
  }

  /** `handleChange`: one field of the scratch copy takes the typed value. */
  function HandleChange(e: Editor, f: ProfileField, value: string): (r: Editor)
    ensures r.student == e.student && r.editing == e.editing
    ensures Get(r.editForm, f) == value
    ensures forall g :: g != f ==> Get(r.editForm, g) == Get(e.editForm, g)
    ensures r.editForm.(name := e.editForm.name, email := e.editForm.email, phone := e.editForm.phone,
                        dob := e.editForm.dob, address := e.editForm.address) == e.editForm
  {
    e.(editForm := Set(e.editForm, f, value))
  }

  /** A field edit typed into the form. */
  datatype Change = Change(field: ProfileField, value: string)

  function ApplyChanges(e: Editor, changes: seq<Change>): Editor
    decreases |changes|
  {
    if |changes| == 0 then e
    else ApplyChanges(HandleChange(e, changes[0].field, changes[0].value), changes[1..])
  }

  /** The value the last change to `f` wrote, if any. */
  function LastWrite(changes: seq<Change>, f: ProfileField): Option<string>
    decreases |changes|
  {
    if |changes| == 0 then None
    else if changes[|changes| - 1].field == f then Some(changes[|changes| - 1].value)
    else LastWrite(changes[..|changes| - 1], f)
  }

  /** `q` is `p` with the edits `changes` applied: later edits win, unedited fields are kept. */
  predicate IsEditedBy(q: Profile, p: Profile, changes: seq<Change>) {
    && (forall f :: Get(q, f) == LastWrite(changes, f).GetOr(Get(p, f)))
    && q.(name := p.name, email := p.email, phone := p.phone, dob := p.dob, address := p.address) == p
  }

  /**
   * Typing never touches the canonical record or the view flag, and leaves
   * the scratch copy equal to its old value with the edits applied.
   */
  lemma {:induction false} ChangesEditOnlyScratch(e: Editor, changes: seq<Change>)
    ensures ApplyChanges(e, changes).student == e.student
    ensures ApplyChanges(e, changes).editing == e.editing
    ensures IsEditedBy(ApplyChanges(e, changes).editForm, e.editForm, changes)
    decreases |changes|
  {
    if |changes| > 0 {
      var c := changes[0];
      var e1 := HandleChange(e, c.field, c.value);
      ChangesEditOnlyScratch(e1, changes[1..]);
      var q := ApplyChanges(e1, changes[1..]).editForm;
      forall f
        ensures Get(q, f) == LastWrite(changes, f).GetOr(Get(e.editForm, f))
      {
        LastWriteCons(c, changes[1..], f);
        assert [c] + changes[1..] == changes;
      }
    }
  }

  lemma {:induction false} LastWriteCons(c: Change, rest: seq<Change>, f: ProfileField)
    ensures LastWrite([c] + rest, f) ==
              if LastWrite(rest, f).Some? then LastWrite(rest, f)
              else if c.field == f then Some(c.value) else None
    decreases |rest|
  {
    if |rest| > 0 {
      var last := rest[|rest| - 1];
      assert ([c] + rest)[..|rest|] == [c] + rest[..|rest| - 1];
      LastWriteCons(c, rest[..|rest| - 1], f);
    } else {
      assert [c] + rest == [c];
    }
  }

  /** Edit, any typing, then cancel: the canonical record is what it was before editing began. */
  lemma EditThenCancelRestores(e: Editor, changes: seq<Change>)
    ensures var r := HandleCancel(ApplyChanges(HandleEdit(e), changes));
            r.student == e.student && !r.editing
  {
    ChangesEditOnlyScratch(HandleEdit(e), changes);
  }

  /** Edit, any typing, then save: the canonical record is the old one with exactly the typed edits. */
  lemma EditThenSaveKeepsOnlyEdits(e: Editor, changes: seq<Change>)
    ensures var r := HandleSave(ApplyChanges(HandleEdit(e), changes));
            IsEditedBy(r.student, e.student, changes) && !r.editing
  {
    ChangesEditOnlyScratch(HandleEdit(e), changes);
  }

  /**
   * Edit, one change of `f` to `v`, then save: the canonical record is the old
   * one with `f` set to `v`, so only `f` may differ, every non-editable field
   * included, and it now holds `v`.
   */
  lemma EditChangeSave(e: Editor, f: ProfileField, v: string)
    ensures var r := HandleSave(HandleChange(HandleEdit(e), f, v));
            && r.student == Set(e.student, f, v)
            && Get(r.student, f) == v
            && (forall g :: g != f ==> Get(r.student, g) == Get(e.student, g))
            && IsEditedBy(r.student, e.student, [Change(f, v)])
  {
    var q := HandleSave(HandleChange(HandleEdit(e), f, v)).student;
    forall g
      ensures Get(q, g) == LastWrite([Change(f, v)], g).GetOr(Get(e.student, g))
    {
      assert [Change(f, v)][..0] == [];
    }
  }

  datatype Role = StudentRole | TeacherRole

  /** The optional `authContext` prop. */
  datatype AuthContext = AuthContext(isLoggedIn: bool, userRole: Option<Role>)

  /**
   * The guard, evaluated the way JavaScript evaluates
   * `ctx?.isLoggedIn === false || (ctx?.isLoggedIn && ctx?.userRole !== 'student')`:
   * optional chaining on a missing context yields `undefined`, which is
   * neither `false` nor truthy.
   */
  function Redirects(ctx: Option<AuthContext>): (redirect: bool)
    ensures redirect <==> ctx.Some? && (!ctx.value.isLoggedIn || ctx.value.userRole != Some(StudentRole))
  {
    var loggedIn: Option<bool> := if ctx.Some? then Some(ctx.value.isLoggedIn) else None;
    var role: Option<Option<Role>> := if ctx.Some? then Some(ctx.value.userRole) else None;
    loggedIn == Some(false) || (loggedIn == Some(true) && role != Some(Some(StudentRole)))
  }

  /** What the page renders: nothing while the redirect home is pending, otherwise the profile. */
  datatype Page = RedirectHome | ProfilePage(editor: Editor)

  function RenderPage(ctx: Option<AuthContext>, e: Editor): (page: Page)
    ensures page.ProfilePage? <==> ctx.None? || (ctx.value.isLoggedIn && ctx.value.userRole == Some(StudentRole))
    ensures page.ProfilePage? ==> page.editor == e
  {
    if Redirects(ctx) then RedirectHome else ProfilePage(e)
  }
}

=== FILE: teacher_dashboard.dfy ===
/**
 * The teacher dashboard's roster (src/pages/TeacherDashboard.tsx): the
 * case-insensitive search over name and roll number, and the colour and
 * trend icon chosen for each stored status.
 */
module TeacherDashboard {

  import opened Wrappers
  import opened Text

  /**
   * A roster entry. `status` is stored, not derived from `cgpa` or
   * `attendance`, which are display values only.
   */
  datatype Student = Student(
    id: string,
    name: string,
    rollNumber: string,
    course: string,
    year: string,
    cgpa: real,
    attendance: real,
    status: string)

  datatype Direction = Up | Down

  /** The search predicate: the lower-cased query occurs in the lower-cased name or roll number. */
  predicate Matches(s: Student, query: string) {
    Includes(Lower(s.name), Lower(query)) || Includes(Lower(s.rollNumber), Lower(query))
  }

  /** `xs` is `ys` with some elements left out and the rest kept in order. */
  predicate IsSubsequence<T(==)>(xs: seq<T>, ys: seq<T>)
    decreases |ys|
  {
    |xs| == 0 || (|ys| > 0 && if xs[0] == ys[0] then IsSubsequence(xs[1..], ys[1..]) else IsSubsequence(xs, ys[1..]))
  }

  /** `students.filter(...)` with the search predicate. */
  function FilterStudents(students: seq<Student>, query: string): (r: seq<Student>)
    ensures IsSubsequence(r, students)
    ensures forall s :: s in r ==> s in students && Matches(s, query)
    ensures forall s :: s in students && Matches(s, query) ==> s in r
    ensures forall s :: multiset(r)[s] == if Matches(s, query) then multiset(students)[s] else 0
    decreases |students|
  {
    if |students| == 0 then []
    else
      var rest := FilterStudents(students[1..], query);
      assert students == [students[0]] + students[1..];
      if Matches(students[0], query) then
        var r := [students[0]] + rest;
        assert r[1..] == rest;
        r
      else
        SkipKeepsSubsequence(rest, students);
        rest
  }

  lemma SkipKeepsSubsequence<T>(xs: seq<T>, ys: seq<T>)
    requires |ys| > 0 && IsSubsequence(xs, ys[1..])
    ensures IsSubsequence(xs, ys)
    decreases |ys|, |xs|
  {
    if |xs| > 0 && xs[0] == ys[0] {
      SubsequenceTail(xs, ys[1..]);
    }
  }

  lemma SubsequenceTail<T>(xs: seq<T>, ys: seq<T>)
    requires |xs| > 0 && IsSubsequence(xs, ys)
    ensures IsSubsequence(xs[1..], ys)
    decreases |ys|, |xs|
  {
    if xs[0] != ys[0] {
      SubsequenceTail(xs, ys[1..]);
      SkipKeepsSubsequence(xs[1..], ys);
    } else {
      SkipKeepsSubsequence(xs[1..], ys);
    }
  }

  /** The empty search box shows the whole roster. */
  lemma {:induction false} EmptyQueryKeepsAll(students: seq<Student>)
    ensures FilterStudents(students, "") == students
    decreases |students|
  {
    if |students| > 0 {
      assert StartsWith(Lower(students[0].name), Lower(""));
      EmptyQueryKeepsAll(students[1..]);
      assert [students[0]] + students[1..] == students;
    }
  }

  /** Searching the search results again with the same query changes nothing. */
  lemma {:induction false} FilterIdempotent(students: seq<Student>, query: string)
    ensures FilterStudents(FilterStudents(students, query), query) == FilterStudents(students, query)
    decreases |students|
  {
    if |students| > 0 {
      FilterIdempotent(students[1..], query);
      var rest := FilterStudents(students[1..], query);
      if Matches(students[0], query) {
        assert ([students[0]] + rest)[1..] == rest;
      }
    }
  }

  lemma LowerOfUpper(s: string)
    ensures Lower(Upper(s)) == Lower(s)
  {
    assert forall i :: 0 <= i < |s| ==> LowerChar(UpperChar(s[i])) == LowerChar(s[i]);
  }

  /** The search ignores the case of the query's letters. */
  lemma QueryCaseIgnored(students: seq<Student>, query: string)
    ensures FilterStudents(students, Upper(query)) == FilterStudents(students, query)
  {
    LowerOfUpper(query);
    SameMatchesSameFilter(students, Upper(query), query);
  }

  lemma {:induction false} SameMatchesSameFilter(students: seq<Student>, q1: string, q2: string)
    requires Lower(q1) == Lower(q2)
    ensures FilterStudents(students, q1) == FilterStudents(students, q2)
    decreases |students|
  {
    if |students| > 0 {
      SameMatchesSameFilter(students[1..], q1, q2);
    }
  }

  /** `getStatusColor`. */
  function StatusColor(status: string): string {
    match status
    case "excellent" => "bg-green-500 text-white"
    case "good" => "bg-blue-500 text-white"
    case "at-risk" => "bg-amber-500 text-white"
    case "critical" => "bg-red-600 text-white"
    case _ => "bg-muted text-muted-foreground"
  }

  /** `getStatusIcon`: an arrow for the four known statuses, nothing otherwise. */
  function StatusIcon(status: string): Option<Direction> {
    match status
    case "excellent" => Some(Up)
    case "good" => Some(Up)
    case "at-risk" => Some(Down)
    case "critical" => Some(Down)
    case _ => None
  }

  const KnownStatuses: set<string> := {"excellent", "good", "at-risk", "critical"}

  const MutedColor := "bg-muted text-muted-foreground"

  /** Every string has a colour; the four known statuses get four distinct ones, anything else the muted default. */
  lemma StatusColorTotal(status: string, other: string)
    ensures status !in KnownStatuses <==> StatusColor(status) == MutedColor
    ensures status in KnownStatuses && other in KnownStatuses && status != other ==>
              StatusColor(status) != StatusColor(other)
  {
  }

  /** Upward arrow for excellent and good, downward for at-risk and critical, none otherwise. */
  lemma StatusIconCases(status: string)
    ensures StatusIcon(status) == Some(Up) <==> status == "excellent" || status == "good"
    ensures StatusIcon(status) == Some(Down) <==> status == "at-risk" || status == "critical"
    ensures StatusIcon(status) == None <==> status !in KnownStatuses
  {
  }
}

=== FILE: text.dfy ===
/**
 * The few JavaScript string primitives the dashboard relies on, stated over
 * `seq<char>`: `trim`, `includes`, `split` on a one-character separator,
 * `toLowerCase` / `toUpperCase` (ASCII letters only) and the decimal
 * rendering of a non-negative integer inside a template literal.
 */
module Text {

  import opened Wrappers

  /** JavaScript truthiness of an optional string: present and non-empty. */
  predicate IsTruthy(o: Option<string>) {
    o.Some? && o.value != ""
  }

  /** ECMAScript's WhiteSpace and LineTerminator code points: exactly what `String.prototype.trim` strips. */
  predicate IsJsWhitespace(c: char) {
    || c == '\t' || c == '\U{000B}' || c == '\U{000C}' || c == ' ' || c == '\U{00A0}' || c == '\U{FEFF}'
    || c == '\n' || c == '\r' || c == '\U{2028}' || c == '\U{2029}'
    || c == '\U{1680}' || ('\U{2000}' <= c <= '\U{200A}') || c == '\U{202F}' || c == '\U{205F}' || c == '\U{3000}'
  }

  /** Every character is whitespace (vacuously true of the empty string). */
  predicate IsBlank(s: string) {
    forall i :: 0 <= i < |s| ==> IsJsWhitespace(s[i])
  }

  function TrimStart(s: string): (r: string)
    ensures |r| <= |s| && r == s[|s| - |r|..]
    ensures IsBlank(s[..|s| - |r|])
    ensures r == [] || !IsJsWhitespace(r[0])
    decreases |s|
  {
    if |s| > 0 && IsJsWhitespace(s[0]) then
      var r := TrimStart(s[1..]);
      assert s[..|s| - |r|] == [s[0]] + s[1..][..|s| - 1 - |r|];
      assert s[1..][|s| - 1 - |r|..] == s[|s| - |r|..];
      r
    else s
  }

  function TrimEnd(s: string): (r: string)
    ensures |r| <= |s| && r == s[..|r|]
    ensures IsBlank(s[|r|..])
    ensures r == [] || !IsJsWhitespace(r[|r| - 1])
    decreases |s|
  {
    if |s| > 0 && IsJsWhitespace(s[|s| - 1]) then
      var r := TrimEnd(s[..|s| - 1]);
      assert s[|r|..] == s[..|s| - 1][|r|..] + [s[|s| - 1]];
      assert s[..|s| - 1][..|r|] == s[..|r|];
      r
    else s
  }

  /** `r` occurs in `s` at `i`, and everything before and after that occurrence is whitespace. */
  predicate IsTrimmedAt(s: string, r: string, i: int) {
    OccursAt(s, r, i) && IsBlank(s[..i]) && IsBlank(s[i + |r|..])
  }

  /**
   * `s.trim()`: `s` with its leading and trailing whitespace removed: an infix
   * of `s` flanked by whitespace only, that neither starts nor ends with whitespace.
   */
  function Trim(s: string): (r: string)
    ensures exists i :: IsTrimmedAt(s, r, i)
    ensures r == [] || (!IsJsWhitespace(r[0]) && !IsJsWhitespace(r[|r| - 1]))
    ensures r == [] <==> IsBlank(s)
  {
    var t := TrimStart(s);
    var r := TrimEnd(t);
    TrimInfix(s, t, r);
    TrimEmptyIffBlank(s, t, r);
    r
  }

  /** `s` with only whitespace cut from its front (giving `t`) and then from its back (giving `r`) holds `r` trimmed at `|s| - |t|`. */
  lemma TrimInfix(s: string, t: string, r: string)
    requires |t| <= |s| && t == s[|s| - |t|..] && IsBlank(s[..|s| - |t|])
    requires |r| <= |t| && r == t[..|r|] && IsBlank(t[|r|..])
    ensures IsTrimmedAt(s, r, |s| - |t|)
  {
    PrefixOfSuffix(s, t, r);
    var k := |s| - |t|;
    assert IsBlank(s[..k]);
    assert s[k + |r|..] == t[|r|..];
    assert IsBlank(t[|r|..]);
  }

  /** A prefix of a suffix of `s` is an infix of `s`. */
  lemma PrefixOfSuffix(s: string, t: string, r: string)
    requires |t| <= |s| && t == s[|s| - |t|..] && |r| <= |t| && r == t[..|r|]
    ensures OccursAt(s, r, |s| - |t|)
  {
    var k := |s| - |t|;
    assert s[k..k + |r|] == s[k..][..|r|];
  }

  lemma TrimEmptyIffBlank(s: string, t: string, r: string)
    requires t == TrimStart(s) && r == TrimEnd(t)
    ensures r == [] <==> IsBlank(s)
  {
    var k := |s| - |t|;
    if r == [] {
      assert t[|r|..] == t;
      assert t == [];
      assert s[..k] == s;
    } else {
      assert r[0] == t[0] == s[k];
    }
  }

  /** `s.startsWith(p)`. */
  predicate StartsWith(s: string, p: string) {
    |p| <= |s| && s[..|p|] == p
  }

  /** `s.includes(sub)`, searched left to right as the engine does. */
  predicate Includes(s: string, sub: string)
    decreases |s|
  {
    StartsWith(s, sub) || (|s| > 0 && Includes(s[1..], sub))
  }

  /** `sub` occurs in `s` starting at index `i`. */
  predicate OccursAt(s: string, sub: string, i: int) {
    0 <= i && i + |sub| <= |s| && s[i..i + |sub|] == sub
  }

  /** The search agrees with the declarative reading of substring containment. */
  lemma {:induction false} IncludesIffOccurs(s: string, sub: string)
    ensures Includes(s, sub) <==> exists i :: OccursAt(s, sub, i)
    decreases |s|
  {
    if Includes(s, sub) {
      if StartsWith(s, sub) {
        assert OccursAt(s, sub, 0);
      } else {
        IncludesIffOccurs(s[1..], sub);
        var j :| OccursAt(s[1..], sub, j);
        assert s[1..][j..j + |sub|] == s[j + 1..j + 1 + |sub|];
        assert OccursAt(s, sub, j + 1);
      }
    }
    if exists i :: OccursAt(s, sub, i) {
      var i :| OccursAt(s, sub, i);
      if i > 0 {
        assert s[1..][i - 1..i - 1 + |sub|] == s[i..i + |sub|];
        assert OccursAt(s[1..], sub, i - 1);
        IncludesIffOccurs(s[1..], sub);
      }
    }
  }

  function LowerChar(c: char): char {
    if 'A' <= c <= 'Z' then (c as int + 32) as char else c
  }

  function UpperChar(c: char): char {
    if 'a' <= c <= 'z' then (c as int - 32) as char else c
  }

  /** `s.toLowerCase()` on ASCII letters. */
  function Lower(s: string): (r: string)
    ensures |r| == |s|
    ensures forall i :: 0 <= i < |s| ==> r[i] == LowerChar(s[i])
  {
    seq(|s|, i requires 0 <= i < |s| => LowerChar(s[i]))
  }

  /** `s.toUpperCase()` on ASCII letters. */
  function Upper(s: string): (r: string)
    ensures |r| == |s|
    ensures forall i :: 0 <= i < |s| ==> r[i] == UpperChar(s[i])
  {
    seq(|s|, i requires 0 <= i < |s| => UpperChar(s[i]))
  }

  /** `s.charAt(0)`: the first character, or the empty string when there is none. */
  function FirstChar(s: string): (r: string)
    ensures |r| <= 1 && (|s| == 0 <==> r == [])
    ensures r == s[..|r|]
  {
    if |s| == 0 then "" else [s[0]]
  }

  /** The parts of `s` rejoined with `sep` in between, the inverse of `Split`. */
  function Join(parts: seq<string>, sep: char): string
    requires |parts| >= 1
    decreases |parts|
  {
    if |parts| == 1 then parts[0] else parts[0] + [sep] + Join(parts[1..], sep)
  }

  lemma JoinPrependChar(c: char, parts: seq<string>, sep: char)
    requires |parts| >= 1
    ensures Join([[c] + parts[0]] + parts[1..], sep) == [c] + Join(parts, sep)
  {
    var q := [[c] + parts[0]] + parts[1..];
    if |parts| > 1 {
      assert q[1..] == parts[1..];
    }
  }

  /**
   * `s.split(sep)` for a one-character separator: one more part than `s` has
   * separators, possibly empty parts, and never fewer than one part.
   */
  function Split(s: string, sep: char): (parts: seq<string>)
    ensures |parts| >= 1
    ensures forall i :: 0 <= i < |parts| ==> sep !in parts[i]
    ensures Join(parts, sep) == s
    decreases |s|
  {
    if |s| == 0 then [""]
    else
      var rest := Split(s[1..], sep);
      if s[0] == sep then
        var parts := [""] + rest;
        assert parts[1..] == rest;
        parts
      else
        var parts := [[s[0]] + rest[0]] + rest[1..];
        JoinPrependChar(s[0], rest, sep);
        assert s == [s[0]] + s[1..];
        parts
  }

  /** A string without the separator splits into itself. */
  lemma {:induction false} SplitWithoutSeparator(p: string, sep: char)
    requires sep !in p
    ensures Split(p, sep) == [p]
    decreases |p|
  {
    if |p| > 0 {
      SplitWithoutSeparator(p[1..], sep);
      assert [p[0]] + p[1..] == p;
    }
  }

  /** A separator ends the first part. */
  lemma {:induction false} SplitAfterPart(p: string, tail: seq<char>, sep: char)
    requires sep !in p
    ensures Split(p + [sep] + tail, sep) == [p] + Split(tail, sep)
    decreases |p|
  {
    var s := p + [sep] + tail;
    if |p| > 0 {
      SplitAfterPart(p[1..], tail, sep);
      assert s[0] == p[0] && s[0] != sep;
      assert s[1..] == p[1..] + [sep] + tail;
      var rest := Split(s[1..], sep);
      assert rest == [p[1..]] + Split(tail, sep);
      assert Split(s, sep) == [[p[0]] + rest[0]] + rest[1..];
      assert [p[0]] + p[1..] == p;
      assert rest[1..] == Split(tail, sep);
    } else {
      assert s == [sep] + tail;
      assert s[1..] == tail;
    }
  }

  /** Splitting undoes joining parts that are free of the separator. */
  lemma {:induction false} SplitJoin(parts: seq<string>, sep: char)
    requires |parts| >= 1
    requires forall i :: 0 <= i < |parts| ==> sep !in parts[i]
    ensures Split(Join(parts, sep), sep) == parts
    decreases |parts|
  {
    SplitWithoutSeparator(parts[0], sep);
    if |parts| > 1 {
      SplitJoin(parts[1..], sep);
      SplitAfterPart(parts[0], Join(parts[1..], sep), sep);
      assert [parts[0]] + parts[1..] == parts;
    }
  }

  /** There is more than one part exactly when the separator occurs. */
  lemma SplitManyIffSeparator(s: string, sep: char)
    ensures |Split(s, sep)| > 1 <==> sep in s
  {
    var parts := Split(s, sep);
    if |parts| > 1 {
      assert s == parts[0] + [sep] + Join(parts[1..], sep);
      assert s[|parts[0]|] == sep;
    } else {
      assert s == parts[0];
    }
  }

  /** The first part's first character is the string's first character, unless the string opens with the separator. */
  lemma SplitFirstPartHead(s: string, sep: char)
    requires |s| > 0
    ensures FirstChar(Split(s, sep)[0]) == if s[0] == sep then "" else [s[0]]
  {
  }

  lemma {:induction false} JoinLast(parts: seq<string>, sep: char)
    requires |parts| > 1
    ensures Join(parts, sep) == Join(parts[..|parts| - 1], sep) + [sep] + parts[|parts| - 1]
    decreases |parts|
  {
    if |parts| > 2 {
      JoinLast(parts[1..], sep);
      assert parts[1..][..|parts| - 2] == parts[..|parts| - 1][1..];
    }
  }

  /** `j` is the index of the last `sep` in `s`. */
  predicate IsLastIndexOf(s: string, sep: char, j: int) {
    0 <= j < |s| && s[j] == sep && sep !in s[j + 1..]
  }

  /** The last part is what follows the last separator. */
  lemma SplitLastPart(s: string, sep: char, j: int)
    requires IsLastIndexOf(s, sep, j)
    ensures Split(s, sep)[|Split(s, sep)| - 1] == s[j + 1..]
  {
    var parts := Split(s, sep);
    SplitManyIffSeparator(s, sep);
    JoinLast(parts, sep);
    var last := parts[|parts| - 1];
    var j0 := |s| - |last| - 1;
    assert s[j0] == sep;
    assert s[j0 + 1..] == last;
  }

  function DigitChar(d: nat): (c: char)
    requires d < 10
    ensures '0' <= c <= '9' && c as int - '0' as int == d
  {
    (d + '0' as int) as char
  }

  predicate IsDigits(s: string) {
    forall i :: 0 <= i < |s| ==> '0' <= s[i] <= '9'
  }

  /** The number a string of decimal digits denotes. */
  function DigitsValue(s: string): nat
    requires IsDigits(s)
    decreases |s|
  {
    if |s| == 0 then 0 else DigitsValue(s[..|s| - 1]) * 10 + (s[|s| - 1] as int - '0' as int)
  }

  /**
   * `${n}` for a non-negative integer: its shortest decimal digits. JavaScript
   * switches to exponent notation from 1e21 on; the clock values rendered here
   * (milliseconds since 1970, about 1.8e12 today) stay far below that.
   */
  function Decimal(n: nat): (r: string)
    ensures |r| >= 1 && IsDigits(r)
    ensures r[0] == '0' ==> n == 0
    decreases n
  {
    if n < 10 then [DigitChar(n)] else Decimal(n / 10) + [DigitChar(n % 10)]
  }

  /** The rendered digits read back as the same number. */
  lemma {:induction false} DecimalRoundTrip(n: nat)
    ensures DigitsValue(Decimal(n)) == n
    decreases n
  {
    if n >= 10 {
      DecimalRoundTrip(n / 10);
      var r := Decimal(n);
      assert r[..|r| - 1] == Decimal(n / 10);
    }
  }
}

=== FILE: wrappers.dfy ===
/** Optional values, standing in for TypeScript's `T | undefined` and `T | null`. */
module Wrappers {

  datatype Option<+T> = None | Some(value: T) {

    /** The encapsulated value, or `default` when there is none (the `??` / default-parameter idiom). */
    function GetOr(default: T): T {
      match this
      case Some(v) => v
      case None => default
    }
  }
}
